=== FILE: README.md ===
# Age-stamped LRU cache (mylrucache), modelled in Dafny

This project models the LRU cache of `lrucache/lru.go`. The cache stores integer values under integer keys. Each entry carries an *age*: the value of the cache's `currentAge` counter at the entry's last touch. Every touch stamps the current age and then advances the counter by one. A touch is a `Get` hit or any `Put`. The capacity `limit` is fixed when `NewLRU` builds the cache. A `Put` of a new key into a full cache first runs a linear scan for the entry with the smallest age. The scan starts from `math.MaxInt32`, so it finds an entry only when some age is below that value. It deletes the entry it finds, unless its key is 0; when it finds none, it deletes nothing. It then inserts the new key.

The model is functional. `Cache` is an immutable record `(limit, values: map<int, Item>, currentAge)`. Each operation returns the new cache, and `Get` also returns its answer.

- `lru.dfy` (module `LruCache`): the data model and the operations `NewLRU`, `IsEmpty`, `Get` and `Put`. It also holds the eviction scan (`Scan`, `ScanVictim`, `Evict`) and the invariant `Valid`: a positive limit, and resident ages that are distinct and below `currentAge`.
- `lru_properties.dfy` (module `LruProperties`): lemmas about the model. `Get` and `Put` keep the invariant. The least-aged key is unique. When its age is below `MaxInt32`, the scan finds it in every iteration order. A `Put` of a new key into a full cache, with ages below `MaxInt32`, evicts exactly that key, unless it is 0, in which case nothing is evicted. With ages below `MaxInt32`, the capacity bound holds when key 0 is not the victim and fails when it is.
- `lru_findings.dfy` (module `LruFindings`): the two ways the cache as written outgrows its limit, each with a witness. It also holds the evidently intended `Put`, for which the capacity bound holds without conditions.
- `demo.dfy` (module `Demo`): the call sequence of the demonstration driver `main.go`, replayed step by step.

Go's map iteration order is random. `Put` therefore takes a parameter `order`: a sequence that lists each resident key exactly once (`Enumerates`), in the order the `range` loop at `lru.go:66` happens to visit them. Resident ages are pairwise distinct, and the scan's comparison is strict, so every order leads to the same victim (`ScanIndependentOfOrder`).

Three behaviours of the code are worth stating up front:

- An LRU cache should never hold more than `limit` entries (`len(c.values) <= c.limit`). This code keeps that bound only while the key the scan picks for eviction is not 0 and some resident age is below `math.MaxInt32`.
- Go's random map order decides ties in the scan. Ties cannot occur while the invariant holds, so the order never changes the outcome.
- `Get` signals a miss with `-1`, which is also a storable value.

## Model

| member | source | states |
|---|---|---|
| LruCache.NewLRU | lrucache/lru.go:18-29 | fails exactly when the limit is below 1; otherwise it yields an empty cache with the given limit and age 0, and that cache satisfies the invariant and the capacity bound |
| LruCache.IsEmpty | lrucache/lru.go:31-36 | true exactly when no key is resident; it is a pure observation, so it changes nothing |
| LruCache.Get | lrucache/lru.go:39-48 | a miss answers -1 and leaves the whole cache unchanged; a hit answers the stored value, gives that key the old `currentAge`, advances `currentAge` by one, and keeps the key set and every other entry |
| LruCache.Scan | lrucache/lru.go:64-71 | the range loop's result is the minimum of the starting age and every visited age; the candidate changes only when a strictly smaller age appears, and then names a visited key holding that age |
| LruCache.ScanVictim | lrucache/lru.go:63-71 | starting from `MaxInt32` and key 0, the scan returns the least-aged key whenever some resident age is below `MaxInt32`, and returns 0 when none is |
| LruCache.Evict | lrucache/lru.go:72-75 | the full-cache branch keeps a sub-map with unchanged entries, and removes at most one key; a removed key is always a least-aged one, and key 0 is never removed; with distinct ages, a nonzero least-aged key whose age is below `MaxInt32` is removed and nothing else is, while a least-aged key 0 leaves the map unchanged; when every resident age is at or above `MaxInt32`, the map is unchanged |
| LruCache.Put | lrucache/lru.go:51-83 | the key ends up holding the new value at the old `currentAge`, which advances by one; no other entry changes and no key appears besides `key`; an existing key or a non-full cache loses no key; at most one key is removed; it is always a least-aged key, so no more recently touched entry is evicted in its place; key 0 is never removed; with distinct ages, a new key entering a full cache replaces the least-aged key when that key is nonzero and its age is below `MaxInt32`, and is added beside it when the least-aged key is 0 or every resident age is at or above `MaxInt32` |
| LruProperties.LeastAgedUnique | lrucache/lru.go:63-71 | with pairwise distinct ages, two least-aged keys are the same key, so the eviction victim is unique |
| LruProperties.ScanFindsLeastAged | lrucache/lru.go:64-71 | with distinct ages, the scan returns the unique least-aged key whenever its age is below `MaxInt32`, in every iteration order |
| LruProperties.ScanIndependentOfOrder | lrucache/lru.go:66-71 | with distinct ages, any two iteration orders of the range loop pick the same victim |
| LruProperties.GetPreservesValid | lrucache/lru.go:44-48 | `Get` keeps the invariant (distinct ages, all below `currentAge`) and the size; after a hit, the key is strictly younger than every other resident key |
| LruProperties.GetRepeatable | lrucache/lru.go:39-48 | two `Get`s of the same key in a row answer the same value |
| LruProperties.PutPreservesValid | lrucache/lru.go:55-81 | `Put` keeps the invariant, and the written key is strictly younger than every other resident key |
| LruProperties.PutEvictsLeastAged | lrucache/lru.go:63-81 | on a new key into a full valid cache with ages below `MaxInt32`, the result is the old map minus the unique least-aged key plus the new entry; when that key is 0, nothing is removed |
| LruProperties.PutPreservesBound | lrucache/lru.go:63-80 | starting from a valid cache within its limit, with ages below `MaxInt32`, `Put` stays within the limit unless key 0 would be the victim |
| LruProperties.PutPreservesBoundWithoutKeyZero | lrucache/lru.go:73-80 | the capacity bound holds across any `Put` on a valid, bounded cache where key 0 is not resident and the ages are below `MaxInt32` (`currentAge <= MaxInt32`) |
| LruProperties.KeyZeroVictimExceedsBound | lrucache/lru.go:73-80 | when key 0 is the least-aged key of a full valid cache, a `Put` of a new key deletes nothing, and the cache holds `limit + 1` entries |
| LruFindings.KeyZeroOverflowWitness | lrucache/lru.go:73-80 | with capacity 1, `Put(0, 5)` and then `Put(7, 8)` leave two entries; the state before the second `Put` is valid and bounded |
| LruFindings.Touch | lrucache/lru.go:44-46 | n `Get`s of a resident key re-stamp it n times: its age is the starting `currentAge` plus n - 1, `currentAge` advances by n, nothing else changes, and the invariant is kept |
| LruFindings.SentinelBlocksEviction | lrucache/lru.go:64-75 | when every resident age has reached `MaxInt32`, a `Put` of a new key removes nothing and the size grows by one |
| LruFindings.SentinelOverflowWitness | lrucache/lru.go:64-75 | with capacity 1, `Put(5, 1)` and then n `Get(5)` calls, for any n of at least 2147483647, reach a valid, bounded state holding key 5 alone, in which `Put(6, 2)` leaves two entries |
| LruFindings.IntendedVictim | lrucache/lru.go:64-71 | a scan seeded with the first visited entry, not with `MaxInt32`, returns a least-aged key for every non-empty cache |
| LruFindings.PutIntended | lrucache/lru.go:61-81 | the corrected `Put`: the key ends up holding the new value at the old `currentAge`, and no other entry changes; an existing key or a non-full cache loses no key; a new key entering a full cache replaces a least-aged key, whatever that key is and however old |
| LruFindings.PutIntendedPreservesBound | lrucache/lru.go:63-80 | the corrected `Put` keeps any cache with a positive limit within that limit, with no condition on key 0 or on the ages |
| LruFindings.PutIntendedEvictsLeastAged | lrucache/lru.go:63-81 | with distinct ages, the corrected `Put` removes exactly the unique least-aged key of a full cache, key 0 included |
| Demo.DriverFill | main.go:9-14 | `NewLRU(3)` yields an empty cache, and `Put(1, 10)`, `Put(2, 20)` and `Put(3, 30)` stamp ages 0, 1 and 2 |
| Demo.DriverTouch | main.go:15-17 | `Get(3)` answers 30 and `Get(2)` answers 20, each re-stamping its key; `Get(10)` misses and changes nothing; key 1 is then the least-aged key of a valid cache |
| Demo.DriverVictim | main.go:18 | for `Put(4, 40)`, the eviction scan settles on key 1 in every iteration order |
| Demo.DriverEvict | main.go:18 | `Put(4, 40)` evicts key 1 and inserts key 4 at age 5, in every iteration order |
| Demo.DriverLookup | main.go:19-20 | after that `Put`, `Get(1)` misses and changes nothing, and `Get(4)` answers 40 |

## Findings

| source | as written | input that shows it | evidently intended | confidence | as-written member | corrected member |
|---|---|---|---|---|---|---|
| lrucache/lru.go:73 | the least-aged key is deleted only if it is not 0, but the new key is inserted regardless | capacity 1: `Put(0, 5)` then `Put(7, 8)` leaves two entries | delete the least-aged key whatever its value, so the cache never exceeds its limit | not executed; high | LruFindings.KeyZeroOverflowWitness | LruFindings.PutIntended |
| lrucache/lru.go:64 | the scan starts from `math.MaxInt32`, but ages are Go `int`s, 64 bits wide on 64-bit platforms, and keep growing past it; once every resident age reaches it, no key is found and nothing is deleted | capacity 1: `Put(5, 1)`, then 2147483647 `Get(5)` calls, then `Put(6, 2)` leaves two entries | seed the scan with the first entry visited, so the least-aged key is always found | not executed; medium | LruFindings.SentinelOverflowWitness | LruFindings.PutIntended |

`LruFindings.PutIntendedPreservesBound` proves the capacity bound for the corrected `Put`. `LruFindings.PutIntendedEvictsLeastAged` proves that the corrected `Put` evicts exactly the least-aged key. The as-written `LruCache.Put` remains the model of the source. The lemmas in `LruProperties` and `Demo` describe that as-written `Put`, which is why they state the conditions under which it behaves.

## Left out

- The `sync.Mutex` in `LRUCache` and its lock and unlock calls are not modelled. Every operation is one atomic step on an immutable value. The race in `Get`, which reads the map before taking the lock, is therefore not represented.
- The text of the `fmt.Errorf` message from `NewLRU` is not modelled. It is the single error value `NonsensicalSize`.
- Go's map iteration order is not modelled. `Put` takes it as the `order` parameter instead.
- The shared `*item` pointers are not modelled. An in-place update of an item is a map update with a new `Item`.
- The declaration of the `item` struct is not part of this model. Its fields `value` and `age` are taken from their uses in `lru.go`.
- The model assumes Go's `int` is 64 bits wide, and ages are unbounded integers. Wrap-around of `currentAge++` is not modelled. With a 64-bit `int` it would take 2^63 touches. Where `int` is 32 bits, it wraps after 2^31 touches and new ages become negative. The scan then prefers any key touched after the wrap over every key touched before it, so it evicts a recently used entry instead of the least recently used one. That 32-bit behaviour is not modelled.
- LruProperties.PutEvictsLeastAged: requires `currentAge <= MaxInt32`, because beyond that the sentinel can hide the victim. `LruFindings.SentinelBlocksEviction` covers that case.
- LruProperties.PutPreservesBound: requires `currentAge <= MaxInt32` for the same reason.
- LruProperties.PutPreservesBoundWithoutKeyZero: requires `currentAge <= MaxInt32` for the same reason. Without it the bound fails even with key 0 absent, as `LruFindings.SentinelOverflowWitness` shows.
- The printing in `main.go` is not modelled. Three of its inline comments are wrong. They say `Get(3)`, `Get(2)` and `Get(4)` print 3, 2 and 4, but the calls return the stored values 30, 20 and 40. `Demo.DriverTouch` and `Demo.DriverLookup` state those values.

=== FILE: demo.dfy ===
/**
 The call sequence of the demonstration driver main.go, replayed on the model.
 Only the Put(4, 40) runs the eviction scan; its iteration order over the
 keys {1, 2, 3} is left free, and the outcome is the same for every order.
 */
module Demo {
  import opened LruCache
  import opened LruProperties

  /** The states the driver passes through, named by the call that produced them. */
  const AfterNew: Cache := Cache(3, map[], 0)
  const AfterPut1: Cache := Cache(3, map[1 := Item(10, 0)], 1)
  const AfterPut2: Cache := Cache(3, map[1 := Item(10, 0), 2 := Item(20, 1)], 2)
  const AfterPut3: Cache := Cache(3, map[1 := Item(10, 0), 2 := Item(20, 1), 3 := Item(30, 2)], 3)
  const AfterGet3: Cache := Cache(3, map[1 := Item(10, 0), 2 := Item(20, 1), 3 := Item(30, 3)], 4)
  const AfterGet2: Cache := Cache(3, map[1 := Item(10, 0), 2 := Item(20, 4), 3 := Item(30, 3)], 5)
  const AfterPut4: Cache := Cache(3, map[2 := Item(20, 4), 3 := Item(30, 3), 4 := Item(40, 5)], 6)

  /** NewLRU(3) succeeds with an empty cache, then Put(1, 10), Put(2, 20) and
      Put(3, 30) fill it, stamping ages 0, 1 and 2. */
  lemma DriverFill()
    ensures NewLRU(3) == Ok(AfterNew) && IsEmpty(AfterNew)
    ensures Put(AfterNew, 1, 10, []) == AfterPut1
    ensures Put(AfterPut1, 2, 20, [1]) == AfterPut2
    ensures Put(AfterPut2, 3, 30, [1, 2]) == AfterPut3
  {
    assert Put(AfterNew, 1, 10, []) == AfterPut1;
    assert Enumerates([1], AfterPut1.values.Keys) by {
      assert AfterPut1.values.Keys == {1};
    }
    assert Put(AfterPut1, 2, 20, [1]) == AfterPut2 by {
      assert |AfterPut1.values| == 1;
    }
    assert Enumerates([1, 2], AfterPut2.values.Keys) by {
      assert AfterPut2.values.Keys == {1, 2};
    }
    assert Put(AfterPut2, 3, 30, [1, 2]) == AfterPut3 by {
      assert AfterPut2.values.Keys == {1, 2};
      assert |AfterPut2.values| == 2;
    }
  }

  /** Get(3) and Get(2) answer 30 and 20 and re-stamp their keys with ages 3
      and 4; Get(10) misses and changes nothing. Key 1 is now the entry
      touched least recently. */
  lemma DriverTouch()
    ensures Get(AfterPut3, 3) == Lookup(30, AfterGet3)
    ensures Get(AfterGet3, 2) == Lookup(20, AfterGet2)
    ensures Get(AfterGet2, 10) == Lookup(Miss, AfterGet2)
    ensures Valid(AfterGet2) && IsLeastAged(AfterGet2.values, 1)
  {
  }

  /** In whatever order the range loop visits the keys {1, 2, 3}, the scan
      settles on key 1. */
  lemma DriverVictim(order: seq<int>)
    requires Enumerates(order, {1, 2, 3})
    ensures ScanVictim(AfterGet2.values, order) == 1
  {
    assert AfterGet2.values.Keys == {1, 2, 3};
    DriverTouch();
    ScanFindsLeastAged(AfterGet2.values, order, 1);
  }

  /** The full-cache branch of Put(4, 40) keeps keys 2 and 3 only. */
  lemma DriverKept(order: seq<int>)
    requires Enumerates(order, {1, 2, 3})
    ensures Evict(AfterGet2.values, order) == map[2 := Item(20, 4), 3 := Item(30, 3)]
  {
    DriverVictim(order);
    assert (AfterGet2.values - {1}).Keys == {2, 3};
  }

  /** Put(4, 40) therefore evicts key 1 and inserts key 4 at age 5. */
  lemma DriverEvict(order: seq<int>)
    requires Enumerates(order, {1, 2, 3})
    ensures Put(AfterGet2, 4, 40, order) == AfterPut4
  {
    assert AfterGet2.values.Keys == {1, 2, 3};
    assert |AfterGet2.values| == 3;
    DriverKept(order);
  }

  /** After that Put, Get(1) misses and Get(4) answers 40. */
  lemma DriverLookup()
    ensures Get(AfterPut4, 1) == Lookup(Miss, AfterPut4)
    ensures Get(AfterPut4, 4).value == 40
  {
  }
}

=== FILE: lru.dfy ===
/**
 The age-stamped LRU cache of lrucache/lru.go.

 The cache maps an integer key to an item carrying the stored value and the
 age it was stamped with at its last touch. Every touch (a hit of Get, any
 Put) stamps the current age and then advances it by one. A Put of a new key
 into a full cache first scans all entries for the smallest age and deletes
 that key, except when that key is 0.

 The mutex of the source is left out: every operation is one atomic step on
 an immutable Cache value, and returns the cache after the step. Go's random
 map iteration order is the parameter `order` of Put, an enumeration of the
 resident keys in the order the range loop happens to visit them.
 */
module LruCache {

  /** Go's math.MaxInt32, the value the eviction scan starts from. */
  const MaxInt32: int := 0x7fff_ffff

  /** What Get answers for a key that is not resident. */
  const Miss: int := -1

  /** One resident entry: the stored value and the age of its last touch. */
  datatype Item = Item(value: int, age: int)

  /** The cache state: the fixed capacity, the entries, and the next age to stamp. */
  datatype Cache = Cache(limit: int, values: map<int, Item>, currentAge: int)

  /** The one failure: a capacity below 1. */
  datatype ConfigError = NonsensicalSize

  datatype Result<T> = Ok(value: T) | Err(error: ConfigError)

  /** What Get returns: the answer and the cache after the call. */
  datatype Lookup = Lookup(value: int, cache: Cache)

  /** The pair the eviction scan carries: the smallest age seen so far and its key. */
  datatype Candidate = Candidate(age: int, key: int)

  /** No two resident entries carry the same age. */
  ghost predicate DistinctAges(values: map<int, Item>)
  {
    forall k1, k2 :: k1 in values && k2 in values && k1 != k2 ==> values[k1].age != values[k2].age
  }

  /** The state every operation keeps: a positive capacity, and resident ages
      that are distinct and were all stamped before the current age. */
  ghost predicate Valid(c: Cache)
  {
    && c.limit >= 1
    && c.currentAge >= 0
    && (forall k :: k in c.values ==> 0 <= c.values[k].age < c.currentAge)
    && DistinctAges(c.values)
  }

  /** The cache holds no more entries than its capacity. */
  ghost predicate Bounded(c: Cache)
  {
    |c.values| <= c.limit
  }

  /** `k` is resident and no resident entry is older than it. */
  ghost predicate IsLeastAged(values: map<int, Item>, k: int)
  {
    k in values && forall j :: j in values ==> values[k].age <= values[j].age
  }

  /** `order` lists every key of `keys` exactly once, as one run of Go's
      range loop over a map does. */
  predicate Enumerates(order: seq<int>, keys: set<int>)
  {
    && (forall i :: 0 <= i < |order| ==> order[i] in keys)
    && (forall k :: k in keys ==> k in order)
    && (forall i, j :: 0 <= i < j < |order| ==> order[i] != order[j])
  }

  /** NewLRU: fails exactly for a capacity below 1, and otherwise yields an
      empty cache that already satisfies the invariant. */
  function NewLRU(limit: int): (r: Result<Cache>)
    ensures r.Err? <==> limit < 1
    ensures r.Ok? ==> r.value.limit == limit && r.value.currentAge == 0 && IsEmpty(r.value)
    ensures r.Ok? ==> Valid(r.value) && Bounded(r.value)
  {
    if limit < 1 then Err(NonsensicalSize)
    else Ok(Cache(limit, map[], 0))
  }

  /** IsEmpty: true exactly when no key is resident. */
  function IsEmpty(c: Cache): (b: bool)
    ensures b <==> c.values.Keys == {}
  {
    |c.values| == 0
  }

  /** Get: a miss answers Miss and leaves the cache as it was; a hit answers the
      stored value and re-stamps that key alone with the current age. */
  function Get(c: Cache, key: int): (r: Lookup)
    ensures key !in c.values ==> r.value == Miss && r.cache == c
    ensures key in c.values ==>
      && r.value == c.values[key].value
      && r.cache.limit == c.limit
      && r.cache.currentAge == c.currentAge + 1
      && r.cache.values.Keys == c.values.Keys
      && r.cache.values[key].value == c.values[key].value
      && r.cache.values[key].age == c.currentAge
      && (forall k :: k in c.values && k != key ==> r.cache.values[k] == c.values[k])
  {
    if key !in c.values then Lookup(Miss, c)
    else
      var i := c.values[key];
      Lookup(i.value, c.(values := c.values[key := i.(age := c.currentAge)], currentAge := c.currentAge + 1))
  }

  /** The range loop of the eviction scan: visits the keys in `order` and keeps
      the first key whose age is strictly below every age seen before it.
      The result is the minimum of `least.age` and the visited ages; the
      candidate changes only when some visited age is strictly smaller. */
  function Scan(values: map<int, Item>, order: seq<int>, least: Candidate): (r: Candidate)
    requires forall i :: 0 <= i < |order| ==> order[i] in values
    ensures r.age <= least.age
    ensures r.age == least.age ==> r == least
    ensures r.age < least.age ==> r.key in order && values[r.key].age == r.age
    ensures forall i :: 0 <= i < |order| ==> r.age <= values[order[i]].age
    decreases |order|
  {
    if order == [] then least
    else
      var k := order[0];
      var next := if values[k].age < least.age then Candidate(values[k].age, k) else least;
      var r := Scan(values, order[1..], next);
      assert r.age < least.age ==> r.key in order by {
        if r.age < least.age && r.key != k {
          assert r.key in order[1..];
        }
      }
      r
  }

  /** The key the full-cache branch of Put picks: the scan's result when it
      starts from age MaxInt32 and key 0. */
  function ScanVictim(values: map<int, Item>, order: seq<int>): (victim: int)
    requires Enumerates(order, values.Keys)
    ensures (exists k :: k in values && values[k].age < MaxInt32) ==> IsLeastAged(values, victim)
    ensures (forall k :: k in values ==> values[k].age >= MaxInt32) ==> victim == 0
    ensures victim == 0 || (victim in values && values[victim].age < MaxInt32)
  {
    var r := Scan(values, order, Candidate(MaxInt32, 0));
    assert forall k :: k in values && values[k].age < MaxInt32 ==> r.age < MaxInt32 by {
      forall k | k in values && values[k].age < MaxInt32
        ensures r.age < MaxInt32
      {
        var i :| 0 <= i < |order| && order[i] == k;
      }
    }
    assert r.age < MaxInt32 ==> IsLeastAged(values, r.key) by {
      if r.age < MaxInt32 {
        forall j | j in values
          ensures values[r.key].age <= values[j].age
        {
          var i :| 0 <= i < |order| && order[i] == j;
        }
      }
    }
    r.key
  }

  /** The full-cache branch of Put before the insertion: deletes the scanned
      key, unless that key is 0. At most one key goes, it is a least-aged one,
      and key 0 never goes. With distinct ages, a nonzero least-aged key below
      the sentinel is exactly the key that goes. When every resident age has
      reached the sentinel the scan finds no key, and nothing goes. */
  function Evict(values: map<int, Item>, order: seq<int>): (kept: map<int, Item>)
    requires Enumerates(order, values.Keys)
    ensures kept.Keys <= values.Keys
    ensures forall k :: k in kept ==> kept[k] == values[k]
    ensures forall k1, k2 :: k1 in values && k1 !in kept && k2 in values && k2 !in kept ==> k1 == k2
    ensures forall k :: k in values && k !in kept ==> IsLeastAged(values, k)
    ensures 0 in values ==> 0 in kept
    ensures |kept| >= |values| - 1
    ensures DistinctAges(values) ==>
      forall v :: IsLeastAged(values, v) && v != 0 && values[v].age < MaxInt32 ==> kept == values - {v}
    ensures DistinctAges(values) && IsLeastAged(values, 0) ==> kept == values
    ensures (forall k :: k in values ==> values[k].age >= MaxInt32) ==> kept == values
  {
    var victim := ScanVictim(values, order);
    if victim != 0 then values - {victim} else values
  }

  /** Put: the key ends up holding `value`, stamped with the current age; no other
      entry changes and no other key appears; at most one key disappears, only
      when the key was new and the cache full, never key 0, and always one no
      other resident key is older than. With distinct ages, a new key entering
      a full cache replaces the least-aged key when that key is nonzero and
      below the sentinel, and is simply added when the least-aged key is 0 or
      when every resident age has reached the sentinel. */
  function Put(c: Cache, key: int, value: int, order: seq<int>): (c': Cache)
    requires Enumerates(order, c.values.Keys)
    ensures c'.limit == c.limit
    ensures c'.currentAge == c.currentAge + 1
    ensures key in c'.values && c'.values[key] == Item(value, c.currentAge)
    ensures forall k :: k in c'.values && k != key ==> k in c.values && c'.values[k] == c.values[k]
    ensures key in c.values || |c.values| < c.limit ==> c'.values.Keys == c.values.Keys + {key}
    ensures key in c.values ==> |c'.values| == |c.values|
    ensures forall k1, k2 :: k1 in c.values && k1 !in c'.values && k2 in c.values && k2 !in c'.values ==> k1 == k2
    ensures forall k :: k in c.values && k !in c'.values ==> IsLeastAged(c.values, k)
    ensures 0 in c.values ==> 0 in c'.values
    ensures |c'.values| <= |c.values| + 1
    ensures key !in c.values && |c.values| >= c.limit && DistinctAges(c.values) ==>
      forall v :: IsLeastAged(c.values, v) && v != 0 && c.values[v].age < MaxInt32 ==>
        c'.values == (c.values - {v})[key := Item(value, c.currentAge)]
    ensures key !in c.values && |c.values| >= c.limit && DistinctAges(c.values) && IsLeastAged(c.values, 0) ==>
      c'.values == c.values[key := Item(value, c.currentAge)]
    ensures key !in c.values && (forall k :: k in c.values ==> c.values[k].age >= MaxInt32) ==>
      c'.values == c.values[key := Item(value, c.currentAge)]
  {
    if key in c.values then
      c.(values := c.values[key := Item(value, c.currentAge)], currentAge := c.currentAge + 1)
    else
      var kept := if |c.values| >= c.limit then Evict(c.values, order) else c.values;
      c.(values := kept[key := Item(value, c.currentAge)], currentAge := c.currentAge + 1)
  }
}

=== FILE: lru_findings.dfy ===
/**
 Two ways the eviction of lrucache/lru.go lets the cache grow past its limit,
 each shown on the cache as written, and the eviction evidently intended,
 with the capacity bound proved for it unconditionally.

 - The key-0 guard: a scan whose least-aged key is 0 deletes nothing.
 - The MaxInt32 sentinel: where Go's `int` is 64 bits wide, ages keep growing
   past MaxInt32; once every resident age has reached it, the scan finds no
   key and, again, nothing is deleted.
 */
module LruFindings {
  import opened LruCache
  import opened LruProperties

  /** Capacity 1, then Put(0, 5) and Put(7, 8): key 0 is the only and hence the
      least-aged entry, it is not deleted, and two entries remain. */
  lemma KeyZeroOverflowWitness()
    ensures NewLRU(1).Ok?
    ensures var c1 := Put(NewLRU(1).value, 0, 5, []);
            Valid(c1) && Bounded(c1) &&
            |Put(c1, 7, 8, [0]).values| == 2 &&
            !Bounded(Put(c1, 7, 8, [0]))
  {
    var c0 := NewLRU(1).value;
    var c1 := Put(c0, 0, 5, []);
    assert c1.values == map[0 := Item(5, 0)];
    assert Enumerates([0], c1.values.Keys);
    PutPreservesValid(c0, 0, 5, []);
    KeyZeroVictimExceedsBound(c1, 7, 8, [0]);
  }

  /** `n` successive Gets of the same key: on a resident key each one re-stamps
      it, so after `n > 0` of them its age is the starting currentAge plus n - 1, and
      nothing else changes. */
  function Touch(c: Cache, key: int, n: nat): (c': Cache)
    ensures c'.limit == c.limit
    ensures c'.values.Keys == c.values.Keys
    ensures key in c.values ==> c'.currentAge == c.currentAge + n
    ensures key in c.values ==> c'.values[key].value == c.values[key].value
    ensures key in c.values && n > 0 ==> c'.values[key].age == c.currentAge + n - 1
    ensures forall k :: k in c.values && k != key ==> c'.values[k] == c.values[k]
    ensures Valid(c) ==> Valid(c')
    decreases n
  {
    if n == 0 then c
    else
      var next := Get(c, key).cache;
      assert Valid(c) ==> Valid(next) by {
        if Valid(c) { GetPreservesValid(c, key); }
      }
      Touch(next, key, n - 1)
  }

  /** A Put of a new key removes nothing when every resident age has reached
      the sentinel, whatever the key set. */
  lemma SentinelBlocksEviction(c: Cache, key: int, value: int, order: seq<int>)
    requires Enumerates(order, c.values.Keys)
    requires key !in c.values
    requires forall k :: k in c.values ==> c.values[k].age >= MaxInt32
    ensures Put(c, key, value, order).values == c.values[key := Item(value, c.currentAge)]
    ensures |Put(c, key, value, order).values| == |c.values| + 1
  {
  }

  /** A reachable state where the sentinel bites: capacity 1, Put(5, 1), then
      n >= MaxInt32 Gets of key 5 (n = MaxInt32 is the smallest such input).
      The cache is valid and full, and Put(6, 2) leaves two entries in it. */
  lemma SentinelOverflowWitness(n: nat)
    requires n >= MaxInt32
    ensures NewLRU(1).Ok?
    ensures var c := Touch(Put(NewLRU(1).value, 5, 1, []), 5, n);
            Valid(c) && Bounded(c) && c.values.Keys == {5} &&
            |Put(c, 6, 2, [5]).values| == 2 &&
            !Bounded(Put(c, 6, 2, [5]))
  {
    var c0 := NewLRU(1).value;
    var c1 := Put(c0, 5, 1, []);
    PutPreservesValid(c0, 5, 1, []);
    assert c1.values.Keys == {5};
    var c := Touch(c1, 5, n);
    assert c.values[5].age >= MaxInt32;
    SentinelBlocksEviction(c, 6, 2, [5]);
  }

  /** The evidently intended victim: the least-aged key, found by a scan that
      starts from the first visited entry instead of a sentinel. */
  function IntendedVictim(values: map<int, Item>, order: seq<int>): (victim: int)
    requires Enumerates(order, values.Keys)
    requires |values| > 0
    ensures IsLeastAged(values, victim)
  {
    NonEmptyHasKey(values);
    var first := order[0];
    var r := Scan(values, order[1..], Candidate(values[first].age, first));
    assert r.age == values[r.key].age by {
      if r.age < values[first].age {
        assert r.key in order[1..];
      }
    }
    forall j | j in values
      ensures r.age <= values[j].age
    {
      var i :| 0 <= i < |order| && order[i] == j;
      if i > 0 { assert order[1..][i - 1] == j; }
    }
    r.key
  }

  /** Put with the intended eviction: a new key entering a full cache always
      removes the least-aged key, whatever that key is and however old. */
  function PutIntended(c: Cache, key: int, value: int, order: seq<int>): (c': Cache)
    requires Enumerates(order, c.values.Keys)
    requires c.limit >= 1
    ensures c'.limit == c.limit
    ensures c'.currentAge == c.currentAge + 1
    ensures key in c'.values && c'.values[key] == Item(value, c.currentAge)
    ensures forall k :: k in c'.values && k != key ==> k in c.values && c'.values[k] == c.values[k]
    ensures key in c.values || |c.values| < c.limit ==> c'.values.Keys == c.values.Keys + {key}
    ensures key !in c.values && |c.values| >= c.limit ==>
      exists victim :: IsLeastAged(c.values, victim) && c'.values.Keys == c.values.Keys - {victim} + {key}
  {
    if key in c.values then
      c.(values := c.values[key := Item(value, c.currentAge)], currentAge := c.currentAge + 1)
    else
      var kept := if |c.values| >= c.limit then c.values - {IntendedVictim(c.values, order)} else c.values;
      c.(values := kept[key := Item(value, c.currentAge)], currentAge := c.currentAge + 1)
  }

  /** The capacity bound holds for the intended Put with no condition on key 0
      or on the ages. */
  lemma PutIntendedPreservesBound(c: Cache, key: int, value: int, order: seq<int>)
    requires Enumerates(order, c.values.Keys)
    requires c.limit >= 1 && Bounded(c)
    ensures Bounded(PutIntended(c, key, value, order))
  {
    var c' := PutIntended(c, key, value, order);
    if key in c.values {
      assert c'.values.Keys == c.values.Keys;
    } else if |c.values| >= c.limit {
      var victim :| IsLeastAged(c.values, victim) && c'.values.Keys == c.values.Keys - {victim} + {key};
      assert |c.values.Keys - {victim}| == |c.values| - 1;
    } else {
      assert c'.values.Keys == c.values.Keys + {key};
    }
  }

  /** With distinct ages the intended Put removes exactly the unique
      least-aged key of a full cache, key 0 included. */
  lemma PutIntendedEvictsLeastAged(c: Cache, key: int, value: int, order: seq<int>, victim: int)
    requires Valid(c)
    requires Enumerates(order, c.values.Keys)
    requires key !in c.values && |c.values| >= c.limit
    requires IsLeastAged(c.values, victim)
    ensures PutIntended(c, key, value, order).values == (c.values - {victim})[key := Item(value, c.currentAge)]
  {
    LeastAgedUnique(c.values, IntendedVictim(c.values, order), victim);
  }
}

=== FILE: lru_properties.dfy ===
/**
 Properties of the cache of lrucache/lru.go: the invariant every operation
 keeps, the uniqueness of the eviction victim, what a Put into a full cache
 removes, and the capacity bound together with the case where key 0 breaks it.
 */
module LruProperties {
  import opened LruCache

  /** A map of positive size has a resident key. */
  lemma NonEmptyHasKey(values: map<int, Item>)
    requires |values| > 0
    ensures exists k :: k in values
  {
    if forall k :: k !in values {
      assert false;
    }
  }

  /** Every finite non-empty map has a least-aged key. */
  lemma LeastAgedExists(values: map<int, Item>) returns (k: int)
    requires |values| > 0
    ensures IsLeastAged(values, k)
    decreases |values|
  {
    NonEmptyHasKey(values);
    var x :| x in values;
    var rest := values - {x};
    if values.Keys == {x} {
      k := x;
    } else {
      assert rest.Keys == values.Keys - {x};
      var k' := LeastAgedExists(rest);
      if values[x].age < values[k'].age {
        k := x;
      } else {
        k := k';
      }
      forall j | j in values
        ensures values[k].age <= values[j].age
      {
        if j != x { assert j in rest; }
      }
    }
  }

  /** With distinct ages the least-aged key is unique. */
  lemma LeastAgedUnique(values: map<int, Item>, k1: int, k2: int)
    requires DistinctAges(values)
    requires IsLeastAged(values, k1) && IsLeastAged(values, k2)
    ensures k1 == k2
  {
  }

  /** When some age is below MaxInt32 the scan returns the least-aged key, in
      whatever order the range loop visits the keys. */
  lemma ScanFindsLeastAged(values: map<int, Item>, order: seq<int>, k: int)
    requires Enumerates(order, values.Keys)
    requires DistinctAges(values)
    requires IsLeastAged(values, k) && values[k].age < MaxInt32
    ensures ScanVictim(values, order) == k
  {
    LeastAgedUnique(values, ScanVictim(values, order), k);
  }

  /** Go's random iteration order does not matter: with distinct ages every
      enumeration of the keys leads the scan to the same victim. */
  lemma ScanIndependentOfOrder(values: map<int, Item>, o1: seq<int>, o2: seq<int>)
    requires Enumerates(o1, values.Keys) && Enumerates(o2, values.Keys)
    requires DistinctAges(values)
    ensures ScanVictim(values, o1) == ScanVictim(values, o2)
  {
    if exists k :: k in values && values[k].age < MaxInt32 {
      LeastAgedUnique(values, ScanVictim(values, o1), ScanVictim(values, o2));
    }
  }

  /** Get keeps the invariant and leaves the size alone; a hit makes its key
      strictly the most recent resident key. */
  lemma GetPreservesValid(c: Cache, key: int)
    requires Valid(c)
    ensures Valid(Get(c, key).cache)
    ensures |Get(c, key).cache.values| == |c.values|
    ensures key in c.values ==>
      forall k :: k in c.values && k != key ==> Get(c, key).cache.values[k].age < Get(c, key).cache.values[key].age
  {
    var c' := Get(c, key).cache;
    assert c'.values.Keys == c.values.Keys;
  }

  /** Repeated Get of the same key answers the same value each time. */
  lemma GetRepeatable(c: Cache, key: int)
    ensures Get(Get(c, key).cache, key).value == Get(c, key).value
  {
  }

  /** Put keeps the invariant and makes the written key strictly the most
      recent resident key. */
  lemma PutPreservesValid(c: Cache, key: int, value: int, order: seq<int>)
    requires Valid(c)
    requires Enumerates(order, c.values.Keys)
    ensures Valid(Put(c, key, value, order))
    ensures forall k :: k in Put(c, key, value, order).values && k != key ==>
      Put(c, key, value, order).values[k].age < Put(c, key, value, order).values[key].age
  {
    var c' := Put(c, key, value, order);
    forall k | k in c'.values
      ensures 0 <= c'.values[k].age < c'.currentAge
    {
      if k != key {
        assert k in c.values && c'.values[k] == c.values[k];
      }
    }
    forall k1, k2 | k1 in c'.values && k2 in c'.values && k1 != k2
      ensures c'.values[k1].age != c'.values[k2].age
    {
      if k1 != key && k2 != key {
        assert c'.values[k1] == c.values[k1] && c'.values[k2] == c.values[k2];
      }
    }
  }

  /** Put of a new key into a full cache: when the resident ages are below the
      sentinel, it removes exactly the unique least-aged key, unless that key
      is 0, and then inserts the new key. */
  lemma PutEvictsLeastAged(c: Cache, key: int, value: int, order: seq<int>, victim: int)
    requires Valid(c) && c.currentAge <= MaxInt32
    requires Enumerates(order, c.values.Keys)
    requires key !in c.values && |c.values| >= c.limit
    requires IsLeastAged(c.values, victim)
    ensures victim != 0 ==> Put(c, key, value, order).values == (c.values - {victim})[key := Item(value, c.currentAge)]
    ensures victim == 0 ==> Put(c, key, value, order).values == c.values[key := Item(value, c.currentAge)]
  {
    ScanFindsLeastAged(c.values, order, victim);
  }

  /** Capacity bound: a Put keeps the cache within its limit whenever the key
      it would evict is not 0. */
  lemma PutPreservesBound(c: Cache, key: int, value: int, order: seq<int>)
    requires Valid(c) && c.currentAge <= MaxInt32 && Bounded(c)
    requires Enumerates(order, c.values.Keys)
    requires key !in c.values && |c.values| >= c.limit ==> !IsLeastAged(c.values, 0)
    ensures Bounded(Put(c, key, value, order))
  {
    var c' := Put(c, key, value, order);
    if key !in c.values && |c.values| >= c.limit {
      var victim := LeastAgedExists(c.values);
      PutEvictsLeastAged(c, key, value, order, victim);
      assert victim != 0;
      assert |c.values - {victim}| == |c.values| - 1;
    } else if key !in c.values {
      assert c'.values.Keys == c.values.Keys + {key};
    }
  }

  /** The bound holds in particular whenever key 0 is not resident. */
  lemma PutPreservesBoundWithoutKeyZero(c: Cache, key: int, value: int, order: seq<int>)
    requires Valid(c) && c.currentAge <= MaxInt32 && Bounded(c)
    requires Enumerates(order, c.values.Keys)
    requires 0 !in c.values
    ensures Bounded(Put(c, key, value, order))
  {
    PutPreservesBound(c, key, value, order);
  }

  /** When key 0 is the least-aged key of a full cache, a Put of a new key
      deletes nothing and the cache grows to one entry past its limit. */
  lemma KeyZeroVictimExceedsBound(c: Cache, key: int, value: int, order: seq<int>)
    requires Valid(c)
    requires Enumerates(order, c.values.Keys)
    requires key !in c.values && |c.values| == c.limit
    requires IsLeastAged(c.values, 0)
    ensures Put(c, key, value, order).values == c.values[key := Item(value, c.currentAge)]
    ensures |Put(c, key, value, order).values| == c.limit + 1
  {
    var victim := ScanVictim(c.values, order);
    if victim != 0 {
      LeastAgedUnique(c.values, victim, 0);
    }
  }
}
